=== FILE: README.md ===
# warcprox deduplication index — a Dafny model

warcprox is an archiving HTTP proxy. It writes every capture to WARC files.
When a response body has already been archived, it can write a short
*revisit* record in place of the full one. Its deduplication index
(`warcprox/dedup.py`) maps the payload digest of a capture, inside a
*bucket* (a namespace such as a collection), to the record id, URL and date
of the capture that first stored that payload.

The model covers:

- **Key construction.** The key is `digest|bucket`; the default bucket is empty.
- **The embedded (sqlite) backend.** `save`, `lookup` and `notify` over an
  abstract map.
- **The distributed (RethinkDB) backend.**
  - The constructor's shard and replica defaults.
  - `save`, including the check it applies to the insert result.
  - `lookup` and `notify`.
- **The gates.** The eligibility rule of `notify`, and the gate and backend
  dispatch of `decorate_with_dedup_info`.
- **`_split_timestamp`** and the `datetime`/`strftime` conversion of a CDX
  timestamp.
- **The read-only remote-archive backend (`CdxServerDedup`).** Its `lookup`
  is a pure function of the HTTP outcome (status and body). Its `save` and
  `notify` do nothing.

Python exceptions are modelled as `Failure` values of a `Result`.

| module | what it holds |
|---|---|
| `Wrappers` | `Option` and `Result` |
| `Strings` | the Python string operations used: `split`, `join`, `int()`, zero-padded rendering, `s[n:]` |
| `DigestKey` | the key, its parse, round trip and injectivity |
| `Capture` | the capture, the WARC record fields, the stored record, the faults, the `notify` eligibility rule |
| `KeyValueStore` | insert-or-replace and point reads on a map, with a replay-history reference definition |
| `DedupDb` | the embedded backend |
| `RethinkDedupDb` | the distributed backend |
| `Timestamp` | `_split_timestamp`, calendar validation, `strftime` |
| `CdxServerDedup` | the remote-archive lookup |
| `Dedup` | the backend variant, `decorate_with_dedup_info`, and `notify` of whichever backend is configured |

Inputs stand in for what the model cannot compute:

- The sqlite file becomes a `map<string, DedupRecord>`.
- The RethinkDB table becomes a map of documents. The cluster becomes its
  server count.
- The counters of the RethinkDB insert result (`WriteResult`) are an input
  of `save` and `notify`.
- The HTTP outcome of the CDX request (`Response(status, body)` or
  `RequestFailed`) is an input of the lookup.
- The payload digest is taken as the string `warcprox.digest_str` would
  produce, such as `sha1:B2LT...`.

## Model

| member | source | states |
|---|---|---|
| DigestKey.Key | warcprox/dedup.py:66 | the key has the digest as its prefix, the separator (a vertical bar) right after it, and the bucket as the rest |
| DigestKey.KeyRoundTrip | warcprox/dedup.py:81 | for a digest without the separator, cutting the key at its first separator gives back the digest and the bucket |
| DigestKey.KeyInjective | warcprox/dedup.py:156-157 | distinct (digest, bucket) pairs give distinct keys when digests contain no separator, so buckets never collide |
| DigestKey.ParseKey | warcprox/dedup.py:66 | the inverse of the key construction (the source never parses a key): cutting at the first separator succeeds exactly on strings holding one, the digest part it returns holds none, and the two parts rebuild the key |
| DigestKey.SameDigestKeysDiffer | warcprox/dedup.py:169-170 | under one digest, distinct buckets give distinct keys whatever characters the buckets hold |
| Capture.Bucket | warcprox/dedup.py:100-105 | the bucket of a capture is its `captures-bucket` from `Warcprox-Meta` when present, and the empty default bucket otherwise |
| Capture.Eligible | warcprox/dedup.py:95-96 | `notify` indexes a capture when the first record is a response record and the payload is non-empty |
| Capture.NotifyRequest | warcprox/dedup.py:94-105 | `notify` skips a capture exactly when the first record is not a response or the payload is empty; otherwise it saves the first record under the payload digest and the `captures-bucket` (or the default bucket); an empty record list raises `IndexError` (`NoRecords`), a response record without a recorder raises `AttributeError` (`NoRecorder`), and an eligible capture without a payload digest raises `NoDigest` |
| KeyValueStore.Get | warcprox/dedup.py:83-84 | a point read answers a value exactly when the key is stored, and then the stored value |
| KeyValueStore.Put | warcprox/dedup.py:72-74 | insert-or-replace: the key then reads the new value, every other key reads as before, and the key set grows by that key only |
| KeyValueStore.PutAllLastWriterWins | warcprox/dedup.py:72-74 | after a sequence of writes, each key reads the value of its last write, or its prior value when it was never written |
| KeyValueStore.NeverWrittenIsAbsent | warcprox/dedup.py:83-92 | a key no write touched is absent from a store built from empty, so its lookup is a miss and not an error |
| DedupDb.Lookup | warcprox/dedup.py:79-92 | a lookup answers a record exactly when the key of (digest, bucket) is stored, and then the stored record |
| DedupDb.Save | warcprox/dedup.py:61-77 | after a save, the lookup of the same digest and bucket answers the record's id, URL and date; every other key answers as before |
| DedupDb.Notify | warcprox/dedup.py:94-105 | an ineligible capture leaves the table unchanged; an eligible one is saved under its digest and bucket; it raises exactly when the eligibility check raises |
| DedupDb.LastWriterWins | warcprox/dedup.py:72-74 | two saves under the same digest and bucket equal the second save alone, so only the second record is retrievable |
| DedupDb.BucketsIsolated | warcprox/dedup.py:100-105 | a save in one bucket does not change the lookup of the same digest in any other bucket |
| DedupDb.HistoryLookup | warcprox/dedup.py:61-92 | after any history of saves into an empty table, a lookup answers the record of the last save of that digest and bucket, or a miss when there was none |
| DedupDb.LastWriteIsLastSave | warcprox/dedup.py:66 | the last write to the key of (digest, bucket) is the write of the last save of that digest and bucket |
| RethinkDedupDb.New | warcprox/dedup.py:127-134 | the constructor on a freshly created table: the configuration with the defaults of `NewConfig`, no documents, every lookup a miss |
| RethinkDedupDb.NewConfig | warcprox/dedup.py:128-132 | an omitted table name is `dedup`; a non-zero shard or replica count is kept; a missing or zero one defaults to the server count for shards and to the smaller of three and the server count for replicas |
| RethinkDedupDb.Sort | warcprox/dedup.py:164 | `sorted(result.values())` is ordered, has the same length and sum, and holds only the counters' values |
| RethinkDedupDb.SortPermutes | warcprox/dedup.py:164 | `sorted` is a permutation: the result holds each value exactly as often as the input |
| RethinkDedupDb.CheckRejects | warcprox/dedup.py:164-165 | the literal condition under which `save` raises: the sorted counters are not `[0,0,0,0,0,1]` and `[deleted, skipped, errors]` is not `[0,0,0]` |
| RethinkDedupDb.SortedIsOneRow | warcprox/dedup.py:164 | the sorted counters equal `[0,0,0,0,0,1]` exactly when the counters add up to one |
| RethinkDedupDb.CheckAccepts | warcprox/dedup.py:164-165 | the check as written accepts exactly the results with no deletion, skip or error, and the results whose only non-zero counter is a single deletion, skip or error |
| RethinkDedupDb.Save | warcprox/dedup.py:155-166 | `save` raises exactly when the check as written rejects the insert result; when it returns, the document for (digest, bucket) holds the key and the record's fields if the result reports the write, the table is unchanged if it does not, and every other key is as before |
| RethinkDedupDb.ErrorOnlyResultAccepted | warcprox/dedup.py:164 | a six-counter insert result reporting one error passes the check as written, so `save` returns although nothing was stored and a lookup of a new key still misses; the intended check rejects it |
| RethinkDedupDb.IntendedCheckIsStricter | warcprox/dedup.py:164-165 | the intended check rejects everything the written check rejects, and accepts only a clean one-row result |
| RethinkDedupDb.SaveIntended | warcprox/dedup.py:164-165 | `save` with the intended check raises exactly when the result is not a clean one-row write, fails whenever the written check fails, and on success stores the record and agrees with `save` |
| RethinkDedupDb.Lookup | warcprox/dedup.py:168-176 | a lookup answers a document exactly when the key is stored, and then the stored document; in a well-keyed table that document carries the key |
| RethinkDedupDb.Upsert | warcprox/dedup.py:161-163 | insert with `conflict="replace"`: the key reads the new document, other keys are unchanged, and the configuration and well-keyedness are kept |
| RethinkDedupDb.Notify | warcprox/dedup.py:178-186 | a capture the eligibility rule skips leaves the table as it was and never reaches the check; an eligible one is saved; it raises exactly the eligibility check's error when that check raises (an empty record list, a missing recorder), and otherwise only when the written check rejects |
| RethinkDedupDb.LastWriterWins | warcprox/dedup.py:162-163 | two accepted saves under the same digest and bucket, the second reporting its write, equal the second save alone |
| RethinkDedupDb.BucketsIsolated | warcprox/dedup.py:183-186 | an accepted save in one bucket does not change the lookup of the same digest in another bucket |
| Strings.ParseNat | warcprox/dedup.py:196 | `int()` of a field succeeds exactly on a non-empty run of ASCII digits, with the value those digits denote |
| Strings.RenderDigits | warcprox/dedup.py:252 | zero-padded rendering yields digits denoting the number |
| Strings.ParseRender | warcprox/dedup.py:252 | `int()` reads a zero-padded rendering back as the number |
| Strings.RenderParse | warcprox/dedup.py:196-201 | a numeral `int()` accepts is the zero-padded rendering of its value at its own width |
| Strings.Drop | warcprox/dedup.py:244 | `digest_key[5:]` is the suffix after the first five characters, or empty for a shorter key |
| Strings.Split | warcprox/dedup.py:245 | `split` returns at least one piece, no piece holds the separator, and joining the pieces gives the input back |
| Strings.SplitJoin | warcprox/dedup.py:245-247 | splitting a join of separator-free pieces gives the pieces back |
| Timestamp.SplitTimestamp | warcprox/dedup.py:189-202 | a split that succeeds comes from a string longer than ten characters; its year is `int()` of everything but the last ten characters and the other five fields are `int()` of the consecutive two-character slices after it; a failure is `int()`'s error |
| Timestamp.SplitTimestampDomain | warcprox/dedup.py:195-202 | the split succeeds exactly on digit strings longer than ten characters |
| Timestamp.SplitCdxForm | warcprox/dedup.py:195-202 | splitting the fourteen-digit form of any fields that fit gives the fields back |
| Timestamp.CdxFormOfSplit | warcprox/dedup.py:195-202 | a fourteen-character timestamp that splits is the fourteen-digit form of its fields, so the split loses nothing |
| Timestamp.NewDateTime | warcprox/dedup.py:249 | `datetime(*fields)` accepts exactly the calendar-valid fields and raises otherwise |
| Timestamp.Strftime | warcprox/dedup.py:252 | the written date is twenty characters, with `-`, `-`, `T`, `:`, `:`, `Z` at the format's positions |
| Timestamp.StrftimeReadsBack | warcprox/dedup.py:252 | each field of the written date reads back with `int()` as the field's value |
| Timestamp.StrftimeInjective | warcprox/dedup.py:252 | distinct valid instants are written as distinct dates |
| Timestamp.CdxDate | warcprox/dedup.py:249-252 | converting a CDX timestamp fails only with the split's or `datetime`'s error, and otherwise yields a date in the `YYYY-MM-DDThh:mm:ssZ` shape |
| Timestamp.CdxDateOfCdxForm | warcprox/dedup.py:249-252 | the fourteen-digit form of a valid instant is reported as that instant's written date |
| Timestamp.NewYear2021 | warcprox/dedup.py:249-252 | `20210101000000` is reported as `2021-01-01T00:00:00Z` |
| CdxServerDedup.Passes | warcprox/dedup.py:246-248 | the scan steps over a line exactly when it is empty or splits into two fields whose second is not the digest |
| CdxServerDedup.Fields | warcprox/dedup.py:247 | a line splits on spaces into space-free fields that join back to the line |
| CdxServerDedup.StopAt | warcprox/dedup.py:247-252 | at a line that is not skipped, the scan raises exactly when the line is not two fields; otherwise it returns the conversion's error when the timestamp does not convert, and exactly the entry whose id and URL are the capture's URL and whose date is the converted timestamp when it does |
| CdxServerDedup.Scan | warcprox/dedup.py:245-253 | the scan answers a miss exactly when every line is empty or names another digest; an entry it returns has id = URL = the capture's URL |
| CdxServerDedup.ScanStopsAtFirst | warcprox/dedup.py:245-252 | the scan's answer is decided by the first line that is neither empty nor a well-formed line for another digest |
| CdxServerDedup.Lookup | warcprox/dedup.py:235-253 | any status but 200 is a miss; status 200 scans the body's lines for the digest without its five-character `sha1:` prefix; a failed request faults on the unbound `result` |
| CdxServerDedup.LookupIntended | warcprox/dedup.py:237-243 | a failed request is a miss; otherwise it answers like the lookup as written; it can only raise on data from a 200 response |
| CdxServerDedup.LookupFindsFirstMatch | warcprox/dedup.py:243-252 | for a body made of lines, the lookup of `sha1:<d>` answers what the first line for `<d>` gives |
| CdxServerDedup.TwoLineHit | warcprox/dedup.py:243-252 | on the body `20210101000000 <a>` / `20210102000000 <b>`, looking up `sha1:<a>` answers the capture's URL as id and URL, dated `2021-01-01T00:00:00Z` |
| CdxServerDedup.TwoLineMiss | warcprox/dedup.py:243-253 | on the same body, a digest on neither line is a miss |
| Dedup.HasPayload | warcprox/dedup.py:109-111 | decorating looks a capture up only when it has a response recorder, a payload digest and a non-empty payload |
| Dedup.Decorate | warcprox/dedup.py:108-123 | without a recorder, a digest or a payload the capture is untouched; otherwise only `dedup_info` changes. A writing backend sets it to its lookup of (digest, bucket-or-default). The CDX backend is passed the capture, and with a bucket it raises |
| Dedup.DecorateIntended | warcprox/dedup.py:113-116 | the intended dispatch agrees with the written one on the writing backends and on bucket-less captures whose request went through; it never raises the arity or unbound-result faults |
| Dedup.BucketedCdxDecorateFaults | warcprox/dedup.py:113-116 | a capture with a bucket and a payload makes the CDX backend raise as written, while the intended dispatch answers its lookup |
| Dedup.IntendedCdxIgnoresBucket | warcprox/dedup.py:120-121 | the intended CDX lookup gives two captures that differ only in `Warcprox-Meta` the same answer |
| Dedup.Save | warcprox/dedup.py:219-222 | `save` of the CDX backend changes nothing; the embedded backend always stores; a save a writing backend performs makes its lookup answer the record; every other key of a writing backend answers as before; an accepted distributed result that reports no write leaves the backend as it was; only the distributed check raises |
| Dedup.Notify | warcprox/dedup.py:255-258 | `notify` of the CDX backend changes nothing; a capture the eligibility rule skips leaves every backend as it was; an eligible capture is saved on a writing backend; a writing backend raises exactly the eligibility check's error when that check raises; the backend kind is kept |
| Dedup.NotifyThenDecorate | warcprox/dedup.py:94-123 | once a writing backend has stored an eligible capture (the distributed one with an insert result reporting the write), a later capture with the same digest and bucket is decorated with the first capture's id, URL and date |
| Dedup.NotifyOtherBucketInvisible | warcprox/dedup.py:113-118 | a capture notified in one bucket does not change how captures of the same digest in another bucket are decorated |

## Left out

- Database plumbing is not modelled: sqlite connections, commits and SQL text, and RethinkDB connections. The stores are maps.
- `start` and `_ensure_db_table` are not modelled (lines 43-59, 136-153). They only create the database and the table.
- Encodings are taken as lossless identities on strings: the latin1/utf-8 `encode`/`decode` calls and the JSON serialisation of the stored value.
- Code outside `warcprox/dedup.py` is not part of this model:
  - `warcprox.digest_str` and the base32 option: the digest string is an input. `notify` renders it with the configured base32 option (lines 97-99, 181-182), while `decorate_with_dedup_info` uses its own `base32=False` default (lines 108, 112). The model gives both gates one string, so Dedup.NotifyThenDecorate holds only when both gates render with the same base32 setting;
  - the `warctools` header accessors: a WARC record is its four header fields;
  - `warcprox.Options`.
- The urllib3 request is not modelled: its outcome is an input. On `HTTPError` the source leaves `result` unbound, which the model states as a fault and lists under Findings.
- Logging and `urllib3.disable_warnings` are left out; they have no effect on results.
- The RethinkDB insert result is reduced to its six counters. Other keys it may carry (`first_error`, `generated_keys`, ...) are ignored. With those keys present, the sorted-values comparison would differ from the one modelled.
- RethinkDedupDb.Save: a rejected insert returns no store. The model does not say what the cluster holds after an insert that the check rejects.
- RethinkDedupDb.Written: whether an insert stored the document is read off its result (one row inserted, replaced or unchanged, and no error). The cluster's own behaviour is not modelled beyond that.
- The CDX server URL (default `https://web.archive.org/cdx/search/cdx`) is used only by the request, whose outcome is an input, so the backend carries no URL.
- Strings.ParseNat models `int()` on ASCII digits only. Python's `int()` also accepts surrounding whitespace, a sign, underscores between digits, and non-ASCII decimal digits; CDX timestamps contain none of these.
- Timestamp.Strftime pads `%Y` to four digits. Some C libraries write years below 1000 unpadded.
- The embedded backend's declared column widths (`varchar(300)` and `varchar(4000)`) are not modelled. sqlite does not enforce them, so the code stores keys of any length. The model follows the code, not a length bound.
- Capture.NotifyRequest: a missing payload digest on an eligible capture raises `NoDigest`. The call into `warcprox.digest_str` that would fail is not part of this model.
- Timestamp.CdxDate states the error kinds and the shape of the date. Its value on the fourteen-digit form is stated by `CdxDateOfCdxForm`.

## Findings

| source | as written | input that shows it | evidently intended | confidence | as-written member | corrected member |
|---|---|---|---|---|---|---|
| warcprox/dedup.py:164 | raises only when the sorted counters differ from `[0,0,0,0,0,1]` AND some deletion, skip or error was reported | a result holding only the six counters, with `errors` = 1 and the rest 0: its sorted values are `[0,0,0,0,0,1]`, so the failed write passes. The gap is in the condition; a real error result also carries `first_error`, with which line 164 raises instead, so no single-document insert is known to show it | raise unless exactly one row was inserted, replaced or left unchanged and nothing was deleted, skipped or errored | not executed; holds for six-counter results only | RethinkDedupDb.ErrorOnlyResultAccepted | RethinkDedupDb.SaveIntended |
| warcprox/dedup.py:113-116 | with a `captures-bucket`, `CdxServerDedup.lookup` is called with three arguments but takes two, so a `TypeError` is raised | a CDX backend and a capture with a payload digest, a non-empty payload and a `captures-bucket` | look up the digest for the capture and ignore the bucket, which the remote archive does not know | not executed | Dedup.BucketedCdxDecorateFaults | Dedup.DecorateIntended |
| warcprox/dedup.py:237-243 | after a logged `HTTPError`, `result.status` reads an unbound variable and raises | a CDX request that fails at the transport level | log the failure and answer a miss | not executed | CdxServerDedup.Lookup | CdxServerDedup.LookupIntended |

=== FILE: capture.dfy ===
/** What the capturing pipeline hands to the dedup index: the recorded URL
    with its response recorder and `Warcprox-Meta`, the WARC records
    written for it, and the value stored per digest. Also the eligibility
    rule that both writing backends apply in `notify`, and the exceptions
    the index can raise. */
module Capture {
  import opened Wrappers
  import opened DigestKey

  /** The WARC-Type header value of a response record. */
  const ResponseType: string := "response"
  /** The `Warcprox-Meta` key that names the bucket of a capture. */
  const CapturesBucket: string := "captures-bucket"

  /** The header fields of a WARC record the index reads. */
  datatype WarcRecord = WarcRecord(recType: string, id: string, url: string, date: string)

  /** The value stored under a key: the record id, URL and date of the
      capture that first stored the payload. */
  datatype DedupRecord = DedupRecord(id: string, url: string, date: string)

  /** What the pipeline computed while receiving the response.
      `payloadDigest` is the digest already rendered as a string such as
      `sha1:B2LT...`, or `None` when no digest was computed. */
  datatype ResponseRecorder = ResponseRecorder(payloadDigest: Option<string>, payloadSize: nat)

  /** A lookup result attached to a capture; `key` is present when the
      distributed backend returned its stored document, which carries it. */
  datatype DedupInfo = DedupInfo(key: Option<string>, record: DedupRecord)

  /** The in-flight capture. A missing `Warcprox-Meta` is the empty map:
      both gates treat `None` and `{}` alike. */
  datatype RecordedUrl = RecordedUrl(
    url: string,
    recorder: Option<ResponseRecorder>,
    warcproxMeta: map<string, string>,
    dedupInfo: Option<DedupInfo>)

  /** The exceptions the modelled code can raise. */
  datatype Fault =
    | NoRecords               // `records[0]` on an empty list
    | NoRecorder              // attribute access on a `None` response recorder
    | NoDigest                // a digest string asked of a missing payload digest
    | UnexpectedWriteResult   // the distributed store's insert result failed the check
    | MalformedCdxLine        // a CDX line that does not split into two fields
    | BadTimestamp            // `int()` of a CDX timestamp field failed
    | BadDate                 // the calendar fields are out of range for `datetime`
    | UnboundResult           // the CDX request failed, leaving its result unbound
    | WrongArity              // the CDX lookup called with one argument too many

  /** The bucket of a capture: `captures-bucket` from `Warcprox-Meta`, the
      default bucket otherwise. */
  function Bucket(meta: map<string, string>): string {
    if CapturesBucket in meta then meta[CapturesBucket] else DefaultBucket
  }

  /** The value written for a WARC record. */
  function Entry(rec: WarcRecord): DedupRecord {
    DedupRecord(rec.id, rec.url, rec.date)
  }

  /** The dedup-eligibility rule: the first record is a response record
      and the payload is non-empty. */
  predicate Eligible(e: RecordedUrl, records: seq<WarcRecord>) {
    && |records| > 0
    && records[0].recType == ResponseType
    && e.recorder.Some?
    && e.recorder.value.payloadSize > 0
  }

  /** A save the `notify` of a writing backend asks for. */
  datatype SaveRequest = SaveRequest(digest: string, record: WarcRecord, bucket: string)

  /** The shared body of the writing backends' `notify`: which save, if
      any, a finished capture asks for, or the exception the check of the
      capture raises. The record type is checked before the recorder is
      touched, so a non-response record is skipped even without one. */
  function NotifyRequest(e: RecordedUrl, records: seq<WarcRecord>): (r: Result<Option<SaveRequest>, Fault>)
    ensures r == Success(None) <==>
              |records| > 0 && (records[0].recType != ResponseType
                                || (e.recorder.Some? && e.recorder.value.payloadSize == 0))
    ensures (r.Success? && r.value.Some?) <==> Eligible(e, records) && e.recorder.value.payloadDigest.Some?
    ensures r.Success? && r.value.Some? ==>
              r.value.value == SaveRequest(e.recorder.value.payloadDigest.value, records[0], Bucket(e.warcproxMeta))
    ensures r.Failure? ==> r.error in {NoRecords, NoRecorder, NoDigest}
    ensures |records| == 0 ==> r == Failure(NoRecords)
    ensures |records| > 0 && records[0].recType == ResponseType && e.recorder.None? ==> r == Failure(NoRecorder)
    ensures Eligible(e, records) && e.recorder.value.payloadDigest.None? ==> r == Failure(NoDigest)
  {
    if |records| == 0 then Failure(NoRecords)
    else if records[0].recType != ResponseType then Success(None)
    else if e.recorder.None? then Failure(NoRecorder)
    else if e.recorder.value.payloadSize <= 0 then Success(None)
    else if e.recorder.value.payloadDigest.None? then Failure(NoDigest)
    else Success(Some(SaveRequest(e.recorder.value.payloadDigest.value, records[0], Bucket(e.warcproxMeta))))
  }
}

=== FILE: cdx_server_dedup.dfy ===
/** The read-only remote-archive backend, `CdxServerDedup`. The HTTP
    request to the CDX server is not modelled: its outcome is an input,
    either a response (status and body) or a transport failure, so the
    server URL it is sent to plays no part. `save` and `notify` do
    nothing; module `Dedup` models them as returning the backend
    unchanged. */
module CdxServerDedup {
  import opened Wrappers
  import opened Strings
  import opened Capture
  import opened Timestamp

  /** Length of the algorithm prefix `sha1:` the lookup drops. */
  const DigestPrefixLength: nat := 5

  /** What the GET request to the CDX server gave back. */
  datatype HttpOutcome = Response(status: int, body: string) | RequestFailed

  /** The two space-separated fields of a CDX line, `<timestamp> <digest>`. */
  function Fields(line: string): (fields: seq<string>)
    ensures |fields| >= 1 && Join(fields, ' ') == line
    ensures forall i | 0 <= i < |fields| :: ' ' !in fields[i]
  {
    Split(line, ' ')
  }

  /** Lines the scan steps over: empty lines and well-formed lines for
      another digest. */
  predicate Passes(line: string, target: string) {
    line == "" || (|Fields(line)| == 2 && Fields(line)[1] != target)
  }

  /** What the scan returns at the first line that does not pass: the
      `ValueError` of a line that is not two fields, or the entry dated by
      its timestamp (or the exception converting that timestamp). */
  function StopAt(line: string, url: string): (r: Result<Option<DedupRecord>, Fault>)
    ensures r != Success(None)
    ensures r.Success? ==> r.value.Some? && r.value.value.id == url && r.value.value.url == url
    ensures |Fields(line)| != 2 <==> r == Failure(MalformedCdxLine)
    ensures r.Success? ==> |Fields(line)| == 2 && CdxDate(Fields(line)[0]) == Success(r.value.value.date)
    ensures |Fields(line)| == 2 && CdxDate(Fields(line)[0]).Failure? ==> r == Failure(CdxDate(Fields(line)[0]).error)
    ensures |Fields(line)| == 2 && CdxDate(Fields(line)[0]).Success? ==>
              r == Success(Some(DedupRecord(url, url, CdxDate(Fields(line)[0]).value)))
    ensures r.Failure? ==> r.error == MalformedCdxLine || r.error == BadTimestamp || r.error == BadDate
  {
    var fields := Fields(line);
    if |fields| != 2 then Failure(MalformedCdxLine)
    else
      var date := CdxDate(fields[0]);
      if date.Failure? then Failure(date.error)
      else Success(Some(DedupRecord(url, url, date.value)))
  }

  /** The loop over the body's lines: skip empty lines, unpack the others
      into timestamp and digest, stop at the first digest equal to
      `target`. It answers `None` exactly when every line passes; an entry
      it returns carries the capture's URL as both id and URL. */
  function Scan(lines: seq<string>, target: string, url: string): (r: Result<Option<DedupRecord>, Fault>)
    ensures r == Success(None) <==> forall i | 0 <= i < |lines| :: Passes(lines[i], target)
    ensures r.Success? && r.value.Some? ==> r.value.value.id == url && r.value.value.url == url
    ensures r.Failure? ==> r.error == MalformedCdxLine || r.error == BadTimestamp || r.error == BadDate
    decreases |lines|
  {
    if |lines| == 0 then Success(None)
    else
      var rest := Scan(lines[1..], target, url);
      assert forall i | 1 <= i < |lines| :: lines[i] == lines[1..][i - 1];
      if Passes(lines[0], target) then rest
      else StopAt(lines[0], url)
  }

  /** The scan's answer is decided by the first line that does not
      pass. */
  lemma {:induction false} ScanStopsAtFirst(lines: seq<string>, target: string, url: string, k: nat)
    requires k < |lines|
    requires forall j | 0 <= j < k :: Passes(lines[j], target)
    requires !Passes(lines[k], target)
    ensures Scan(lines, target, url) == StopAt(lines[k], url)
    decreases k
  {
    if k > 0 {
      assert Passes(lines[0], target);
      assert Scan(lines, target, url) == Scan(lines[1..], target, url);
      assert forall j | 0 <= j < k - 1 :: lines[1..][j] == lines[j + 1];
      assert lines[1..][k - 1] == lines[k];
      ScanStopsAtFirst(lines[1..], target, url, k - 1);
    }
  }

  /** `lookup(digest_key, recorded_url)` as written: a failed request
      leaves `result` unbound and the next line faults; any status but 200
      is a miss; otherwise the body is scanned for the digest with its
      `sha1:` prefix dropped. */
  function Lookup(digestKey: string, url: string, resp: HttpOutcome): (r: Result<Option<DedupRecord>, Fault>)
    ensures resp.RequestFailed? ==> r == Failure(UnboundResult)
    ensures resp.Response? && resp.status != 200 ==> r == Success(None)
    ensures resp.Response? && resp.status == 200 ==>
              r == Scan(Split(resp.body, '\n'), Drop(digestKey, DigestPrefixLength), url)
    ensures r.Success? && r.value.Some? ==> r.value.value.id == url && r.value.value.url == url
  {
    match resp
    case RequestFailed => Failure(UnboundResult)
    case Response(status, body) =>
      if status != 200 then Success(None)
      else Scan(Split(body, '\n'), Drop(digestKey, DigestPrefixLength), url)
  }

  /** `lookup` as evidently intended: a failed request is logged and
      answered as a miss, like any other unsuccessful response, so only
      malformed data from a successful response can raise. */
  function LookupIntended(digestKey: string, url: string, resp: HttpOutcome): (r: Result<Option<DedupRecord>, Fault>)
    ensures resp.RequestFailed? ==> r == Success(None)
    ensures resp.Response? ==> r == Lookup(digestKey, url, resp)
    ensures r.Failure? ==> resp.Response? && resp.status == 200 && r.error != UnboundResult
  {
    match resp
    case RequestFailed => Success(None)
    case Response(_, _) => Lookup(digestKey, url, resp)
  }

  /** Scanning a body laid out line by line: empty lines and lines for
      other digests are skipped, and the first line for the digest
      decides the answer. */
  lemma LookupFindsFirstMatch(url: string, lines: seq<string>, digest: string, k: nat)
    requires |lines| >= 1 && forall i | 0 <= i < |lines| :: '\n' !in lines[i]
    requires k < |lines|
    requires forall j | 0 <= j < k :: Passes(lines[j], digest)
    requires !Passes(lines[k], digest)
    ensures Lookup("sha1:" + digest, url, Response(200, Join(lines, '\n'))) == StopAt(lines[k], url)
  {
    SplitJoin(lines, '\n');
    assert Drop("sha1:" + digest, DigestPrefixLength) == digest;
    ScanStopsAtFirst(lines, digest, url, k);
  }

  /** The timestamps of a two-line CDX body: 1 and 2 January 2021. */
  const NewYear: string := "20210101000000"
  const NextDay: string := "20210102000000"

  /** A CDX response line `<timestamp> <digest>`. */
  function CdxLine(ts: string, digest: string): string {
    ts + " " + digest
  }

  /** The two lines of that body, for digests `a` and `b`. */
  function ExampleLines(a: string, b: string): seq<string> {
    [CdxLine(NewYear, a), CdxLine(NextDay, b)]
  }

  /** The two-line response body. */
  function ExampleBody(a: string, b: string): string {
    Join(ExampleLines(a, b), '\n')
  }

  /** A two-line CDX body: of the lines `20210101000000 <a>` and
      `20210102000000 <b>`, a lookup of `sha1:<a>` answers the first
      line's date. */
  lemma TwoLineHit(url: string, a: string, b: string)
    requires ' ' !in a && '\n' !in a && ' ' !in b && '\n' !in b
    ensures Lookup("sha1:" + a, url, Response(200, ExampleBody(a, b)))
         == Success(Some(DedupRecord(url, url, "2021-01-01T00:00:00Z")))
  {
    var lines := ExampleLines(a, b);
    ExampleLayout(a, b);
    StopAtNewYear(lines[0], url, a);
    LookupFindsFirstMatch(url, lines, a, 0);
  }

  lemma StopAtNewYear(line: string, url: string, digest: string)
    requires Fields(line) == [NewYear, digest]
    ensures !Passes(line, digest)
    ensures StopAt(line, url) == Success(Some(DedupRecord(url, url, "2021-01-01T00:00:00Z")))
  {
    NewYear2021();
  }

  /** ... and a lookup of a digest on neither line misses. */
  lemma TwoLineMiss(url: string, a: string, b: string, c: string)
    requires ' ' !in a && '\n' !in a && ' ' !in b && '\n' !in b
    requires c != a && c != b
    ensures Lookup("sha1:" + c, url, Response(200, ExampleBody(a, b))) == Success(None)
  {
    var lines := ExampleLines(a, b);
    ExampleLayout(a, b);
    assert Drop("sha1:" + c, DigestPrefixLength) == c;
    assert Passes(lines[0], c) && Passes(lines[1], c);
  }

  /** How the two-line body splits into lines and the lines into fields. */
  lemma ExampleLayout(a: string, b: string)
    requires ' ' !in a && '\n' !in a && ' ' !in b && '\n' !in b
    ensures |ExampleLines(a, b)| == 2
    ensures forall i | 0 <= i < 2 :: '\n' !in ExampleLines(a, b)[i]
    ensures Split(ExampleBody(a, b), '\n') == ExampleLines(a, b)
    ensures Fields(ExampleLines(a, b)[0]) == [NewYear, a]
    ensures Fields(ExampleLines(a, b)[1]) == [NextDay, b]
  {
    CleanLine(NewYear, a);
    CleanLine(NextDay, b);
    SplitPair(CdxLine(NewYear, a), CdxLine(NextDay, b), '\n');
  }

  /** A line of a separator-free timestamp and digest holds no newline
      and splits into those two fields. */
  lemma CleanLine(ts: string, digest: string)
    requires ts == NewYear || ts == NextDay
    requires ' ' !in digest && '\n' !in digest
    ensures '\n' !in CdxLine(ts, digest)
    ensures Fields(CdxLine(ts, digest)) == [ts, digest]
  {
    assert ' ' !in ts && '\n' !in ts;
    SplitPair(ts, digest, ' ');
  }

  /** Splitting two separator-free pieces joined by the separator. */
  lemma SplitPair(a: string, b: string, sep: char)
    requires sep !in a && sep !in b
    ensures Join([a, b], sep) == a + [sep] + b
    ensures Split(a + [sep] + b, sep) == [a, b]
  {
    SplitJoin([a, b], sep);
  }
}

=== FILE: dedup.dfy ===
/** How the pipeline uses whichever index is configured:
    `decorate_with_dedup_info` looks the capture's digest up before the
    record is written, and `notify` hands the finished records to the
    index. The three backends are one tagged variant; the remote-archive
    backend's HTTP answer is an input of each call that may query it. */
module Dedup {
  import opened Wrappers
  import opened DigestKey
  import opened Capture
  import DedupDb
  import RethinkDedupDb
  import CdxServerDedup

  datatype Backend =
    | Embedded(table: DedupDb.Table)
    | Distributed(db: RethinkDedupDb.Db)
    | CdxServer

  /** The decorate gate: a response recorder with a payload digest and a
      non-empty payload. */
  predicate HasPayload(e: RecordedUrl) {
    e.recorder.Some? && e.recorder.value.payloadDigest.Some? && e.recorder.value.payloadSize > 0
  }

  function Digest(e: RecordedUrl): string
    requires HasPayload(e)
  {
    e.recorder.value.payloadDigest.value
  }

  /** A stored-record lookup result as the capture carries it. */
  function FromRecord(r: Option<DedupRecord>): Option<DedupInfo> {
    match r
    case None => None
    case Some(rec) => Some(DedupInfo(None, rec))
  }

  /** A stored-document lookup result as the capture carries it. */
  function FromDocument(r: Option<RethinkDedupDb.Document>): Option<DedupInfo> {
    match r
    case None => None
    case Some(doc) => Some(DedupInfo(Some(doc.key), doc.record))
  }

  /** The lookup of a writing backend, which never raises. */
  function StoreLookup(b: Backend, digest: string, bucket: string): Option<DedupInfo>
    requires !b.CdxServer?
  {
    match b
    case Embedded(t) => FromRecord(DedupDb.Lookup(t, digest, bucket))
    case Distributed(db) => FromDocument(RethinkDedupDb.Lookup(db, digest, bucket))
  }

  /** The remote-archive lookup's answer attached to the capture. */
  function CdxDecorated(e: RecordedUrl, r: Result<Option<DedupRecord>, Fault>): Result<RecordedUrl, Fault> {
    match r
    case Failure(f) => Failure(f)
    case Success(rec) => Success(e.(dedupInfo := FromRecord(rec)))
  }

  /** `decorate_with_dedup_info(dedup_db, recorded_url)` as written.
      Without a recorder, a digest or a payload nothing happens. Otherwise
      only `dedup_info` changes: a writing backend sets it to its lookup
      of the digest in the capture's bucket; the remote-archive backend is
      passed the capture and sets it to its answer, except that with a
      `captures-bucket` it is called with one argument too many and
      raises. */
  function Decorate(b: Backend, e: RecordedUrl, cdx: CdxServerDedup.HttpOutcome): (r: Result<RecordedUrl, Fault>)
    ensures !HasPayload(e) ==> r == Success(e)
    ensures r.Success? ==> r.value == e.(dedupInfo := r.value.dedupInfo)
    ensures HasPayload(e) && !b.CdxServer? ==>
              r == Success(e.(dedupInfo := StoreLookup(b, Digest(e), Bucket(e.warcproxMeta))))
    ensures HasPayload(e) && b.CdxServer? && CapturesBucket in e.warcproxMeta ==> r == Failure(WrongArity)
    ensures HasPayload(e) && b.CdxServer? && CapturesBucket !in e.warcproxMeta ==>
              r == CdxDecorated(e, CdxServerDedup.Lookup(Digest(e), e.url, cdx))
  {
    if !HasPayload(e) then Success(e)
    else
      var digest := Digest(e);
      if CapturesBucket in e.warcproxMeta then
        var bucket := e.warcproxMeta[CapturesBucket];
        match b
        case CdxServer => Failure(WrongArity)
        case Embedded(t) => Success(e.(dedupInfo := FromRecord(DedupDb.Lookup(t, digest, bucket))))
        case Distributed(db) => Success(e.(dedupInfo := FromDocument(RethinkDedupDb.Lookup(db, digest, bucket))))
      else
        match b
        case CdxServer => CdxDecorated(e, CdxServerDedup.Lookup(digest, e.url, cdx))
        case Embedded(t) => Success(e.(dedupInfo := FromRecord(DedupDb.Lookup(t, digest, DefaultBucket))))
        case Distributed(db) => Success(e.(dedupInfo := FromDocument(RethinkDedupDb.Lookup(db, digest, DefaultBucket))))
  }

  /** `decorate_with_dedup_info` as evidently intended: the remote-archive
      backend is asked about the digest and the capture whatever the
      bucket, and a failed request is a miss. It agrees with `Decorate`
      on the writing backends, and on the remote-archive one whenever the
      capture has no bucket and the request went through. */
  function DecorateIntended(b: Backend, e: RecordedUrl, cdx: CdxServerDedup.HttpOutcome): (r: Result<RecordedUrl, Fault>)
    ensures !b.CdxServer? ==> r == Decorate(b, e, cdx)
    ensures CapturesBucket !in e.warcproxMeta && cdx.Response? ==> r == Decorate(b, e, cdx)
    ensures r.Failure? ==> b.CdxServer? && cdx.Response? && cdx.status == 200
                           && r.error != WrongArity && r.error != UnboundResult
    ensures r.Success? ==> r.value == e.(dedupInfo := r.value.dedupInfo)
  {
    if !HasPayload(e) then Success(e)
    else
      match b
      case CdxServer => CdxDecorated(e, CdxServerDedup.LookupIntended(Digest(e), e.url, cdx))
      case _ => Success(e.(dedupInfo := StoreLookup(b, Digest(e), Bucket(e.warcproxMeta))))
  }

  /** The intended remote-archive lookup does not depend on the bucket:
      two captures differing only in `Warcprox-Meta` get the same
      answer. */
  lemma IntendedCdxIgnoresBucket(e: RecordedUrl, m1: map<string, string>, m2: map<string, string>,
                                 cdx: CdxServerDedup.HttpOutcome)
    ensures var r1 := DecorateIntended(CdxServer, e.(warcproxMeta := m1), cdx);
            var r2 := DecorateIntended(CdxServer, e.(warcproxMeta := m2), cdx);
            (r1.Success? <==> r2.Success?) && (r1.Success? ==> r1.value.dedupInfo == r2.value.dedupInfo)
  {
  }

  /** The finding in the as-written dispatch: a capture with a bucket and
      a payload makes the remote-archive backend raise, where the
      intended dispatch answers its lookup. */
  lemma BucketedCdxDecorateFaults(e: RecordedUrl, cdx: CdxServerDedup.HttpOutcome)
    requires HasPayload(e) && CapturesBucket in e.warcproxMeta
    ensures Decorate(CdxServer, e, cdx) == Failure(WrongArity)
    ensures DecorateIntended(CdxServer, e, cdx)
         == CdxDecorated(e, CdxServerDedup.LookupIntended(Digest(e), e.url, cdx))
  {
  }

  /** `save(digest_key, response_record, bucket)` of the configured
      backend. The distributed backend's insert result is an input; the
      remote-archive backend's `save` does nothing. A save that a writing
      backend performs makes its lookup answer the record. */
  function Save(b: Backend, digest: string, rec: WarcRecord, bucket: string, w: RethinkDedupDb.WriteResult): (r: Result<Backend, Fault>)
    ensures b.CdxServer? ==> r == Success(b)
    ensures b.Embedded? ==> r.Success?
    ensures r.Failure? ==> b.Distributed? && RethinkDedupDb.CheckRejects(w) && r.error == UnexpectedWriteResult
    ensures r.Success? ==> r.value.Embedded? == b.Embedded? && r.value.Distributed? == b.Distributed?
    ensures r.Success? && (b.Embedded? || (b.Distributed? && RethinkDedupDb.Written(w))) ==>
              StoreLookup(r.value, digest, bucket).Some? && StoreLookup(r.value, digest, bucket).value.record == Entry(rec)
    ensures r.Success? && !b.CdxServer? ==>
              forall d, bk | Key(d, bk) != Key(digest, bucket) :: StoreLookup(r.value, d, bk) == StoreLookup(b, d, bk)
    ensures b.Distributed? && r.Success? && !RethinkDedupDb.Written(w) ==> r == Success(b)
  {
    match b
    case Embedded(t) => Success(Embedded(DedupDb.Save(t, digest, rec, bucket)))
    case Distributed(db) =>
      (match RethinkDedupDb.Save(db, digest, rec, bucket, w)
       case Failure(f) => Failure(f)
       case Success(db') => Success(Distributed(db')))
    case CdxServer => Success(b)
  }

  /** `notify(recorded_url, records)` of the configured backend: the
      writing backends apply the eligibility rule and save; the
      remote-archive backend's `notify` does nothing. A capture the rule
      skips leaves every backend as it was. */
  function Notify(b: Backend, e: RecordedUrl, records: seq<WarcRecord>, w: RethinkDedupDb.WriteResult): (r: Result<Backend, Fault>)
    ensures b.CdxServer? ==> r == Success(b)
    ensures NotifyRequest(e, records) == Success(None) ==> r == Success(b)
    ensures r.Success? && !Eligible(e, records) ==> r.value == b
    ensures !b.CdxServer? && Eligible(e, records) && e.recorder.value.payloadDigest.Some? ==>
              r == Save(b, e.recorder.value.payloadDigest.value, records[0], Bucket(e.warcproxMeta), w)
    ensures !b.CdxServer? && NotifyRequest(e, records).Failure? ==> r == Failure(NotifyRequest(e, records).error)
    ensures r.Success? ==> r.value.Embedded? == b.Embedded? && r.value.Distributed? == b.Distributed?
  {
    match b
    case Embedded(t) =>
      (match DedupDb.Notify(t, e, records)
       case Failure(f) => Failure(f)
       case Success(t') => Success(Embedded(t')))
    case Distributed(db) =>
      (match RethinkDedupDb.Notify(db, e, records, w)
       case Failure(f) => Failure(f)
       case Success(db') => Success(Distributed(db')))
    case CdxServer => Success(b)
  }

  /** The pipeline round trip: once a writing backend has stored an
      eligible capture (for the distributed backend, the insert result
      reports the write), a later capture with the same digest and bucket
      is decorated with the first capture's record id, URL and date. The
      digest is one string for both gates, so this presumes both render it
      with the same base32 setting. */
  lemma NotifyThenDecorate(b: Backend, e: RecordedUrl, records: seq<WarcRecord>, w: RethinkDedupDb.WriteResult,
                           later: RecordedUrl, cdx: CdxServerDedup.HttpOutcome)
    requires !b.CdxServer?
    requires Eligible(e, records) && e.recorder.value.payloadDigest.Some?
    requires b.Distributed? ==> RethinkDedupDb.Written(w)
    requires Notify(b, e, records, w).Success?
    requires HasPayload(later) && Digest(later) == e.recorder.value.payloadDigest.value
    requires Bucket(later.warcproxMeta) == Bucket(e.warcproxMeta)
    ensures Decorate(Notify(b, e, records, w).value, later, cdx).Success?
    ensures Decorate(Notify(b, e, records, w).value, later, cdx).value.dedupInfo.Some?
    ensures Decorate(Notify(b, e, records, w).value, later, cdx).value.dedupInfo.value.record
         == DedupRecord(records[0].id, records[0].url, records[0].date)
  {
  }

  /** A capture saved in one bucket is invisible to decorations in any
      other bucket: the lookup answers what it answered before. */
  lemma NotifyOtherBucketInvisible(b: Backend, e: RecordedUrl, records: seq<WarcRecord>, w: RethinkDedupDb.WriteResult,
                                   later: RecordedUrl, cdx: CdxServerDedup.HttpOutcome)
    requires !b.CdxServer?
    requires Notify(b, e, records, w).Success?
    requires e.recorder.Some? && e.recorder.value.payloadDigest.Some?
    requires HasPayload(later) && Digest(later) == e.recorder.value.payloadDigest.value
    requires Bucket(later.warcproxMeta) != Bucket(e.warcproxMeta)
    ensures Decorate(Notify(b, e, records, w).value, later, cdx) == Decorate(b, later, cdx)
  {
    var d := e.recorder.value.payloadDigest.value;
    SameDigestKeysDiffer(d, Bucket(e.warcproxMeta), Bucket(later.warcproxMeta));
  }
}

=== FILE: dedup_db.dfy ===
/** The embedded (sqlite) backend, `DedupDb`, with its table reduced to a
    map from key to stored value. The JSON text the table holds and the
    latin-1 round trips of its fields are lossless and left out, so the
    map holds the decoded `DedupRecord` itself. */
module DedupDb {
  import opened Wrappers
  import opened DigestKey
  import opened Capture
  import KeyValueStore

  /** The `dedup` table: key to stored value. */
  type Table = map<string, DedupRecord>

  /** `lookup(digest_key, bucket)`: the value stored under the key of
      (digest, bucket), `None` on a miss. */
  function Lookup(t: Table, digest: string, bucket: string): (r: Option<DedupRecord>)
    ensures r.Some? <==> Key(digest, bucket) in t
    ensures r.Some? ==> r.value == t[Key(digest, bucket)]
  {
    KeyValueStore.Get(t, Key(digest, bucket))
  }

  /** `save(digest_key, response_record, bucket)`: insert-or-replace the
      record's id, URL and date under the key. A lookup of the same digest
      and bucket then returns exactly those fields; every other key reads
      what it read before. */
  function Save(t: Table, digest: string, rec: WarcRecord, bucket: string): (t': Table)
    ensures Lookup(t', digest, bucket) == Some(DedupRecord(rec.id, rec.url, rec.date))
    ensures forall d, b | Key(d, b) != Key(digest, bucket) :: Lookup(t', d, b) == Lookup(t, d, b)
  {
    KeyValueStore.Put(t, Key(digest, bucket), Entry(rec))
  }

  /** `notify(recorded_url, records)`: saves the first record under the
      capture's digest and bucket when the capture is eligible, leaves the
      table as it was when it is not. */
  function Notify(t: Table, e: RecordedUrl, records: seq<WarcRecord>): (r: Result<Table, Fault>)
    ensures NotifyRequest(e, records) == Success(None) ==> r == Success(t)
    ensures r.Success? && !Eligible(e, records) ==> r.value == t
    ensures Eligible(e, records) && e.recorder.value.payloadDigest.Some? ==>
              r == Success(Save(t, e.recorder.value.payloadDigest.value, records[0], Bucket(e.warcproxMeta)))
    ensures r.Failure? <==> NotifyRequest(e, records).Failure?
  {
    match NotifyRequest(e, records)
    case Failure(f) => Failure(f)
    case Success(None) => Success(t)
    case Success(Some(req)) => Success(Save(t, req.digest, req.record, req.bucket))
  }

  /** Two saves under the same digest and bucket leave only the second
      record retrievable, and no other key differs from a single save. */
  lemma LastWriterWins(t: Table, digest: string, bucket: string, first: WarcRecord, second: WarcRecord)
    ensures Save(Save(t, digest, first, bucket), digest, second, bucket) == Save(t, digest, second, bucket)
    ensures Lookup(Save(Save(t, digest, first, bucket), digest, second, bucket), digest, bucket)
         == Some(Entry(second))
  {
  }

  /** A save in one bucket is invisible from every other bucket of the
      same digest. */
  lemma BucketsIsolated(t: Table, digest: string, rec: WarcRecord, saved: string, other: string)
    requires saved != other
    ensures Lookup(Save(t, digest, rec, saved), digest, other) == Lookup(t, digest, other)
  {
    SameDigestKeysDiffer(digest, saved, other);
  }

  /** Replaying a history of saves: a lookup answers the record of the
      last save of that digest and bucket, and `None` when there was no
      such save. */
  lemma HistoryLookup(saves: seq<SaveRequest>, digest: string, bucket: string)
    requires forall i | 0 <= i < |saves| :: Separator !in saves[i].digest
    requires Separator !in digest
    ensures Lookup(Replay(map[], saves), digest, bucket) == LastSave(saves, digest, bucket)
  {
    KeyValueStore.PutAllLastWriterWins(map[], Writes(saves), Key(digest, bucket));
    LastWriteIsLastSave(saves, digest, bucket);
  }

  /** The table writes a history of saves performs. */
  function Writes(saves: seq<SaveRequest>): (w: seq<(string, DedupRecord)>)
    ensures |w| == |saves|
    ensures forall i | 0 <= i < |saves| ::
              w[i] == (Key(saves[i].digest, saves[i].bucket), Entry(saves[i].record))
  {
    seq(|saves|, i requires 0 <= i < |saves| => (Key(saves[i].digest, saves[i].bucket), Entry(saves[i].record)))
  }

  /** Saves applied in order. */
  function Replay(t: Table, saves: seq<SaveRequest>): Table {
    KeyValueStore.PutAll(t, Writes(saves))
  }

  /** The record of the last save of (digest, bucket), if any. */
  function LastSave(saves: seq<SaveRequest>, digest: string, bucket: string): Option<DedupRecord>
    decreases |saves|
  {
    if |saves| == 0 then None
    else
      var last := saves[|saves| - 1];
      if last.digest == digest && last.bucket == bucket then Some(Entry(last.record))
      else LastSave(saves[..|saves| - 1], digest, bucket)
  }

  /** With separator-free digests, the last write to a key is the last
      save of the (digest, bucket) pair that key stands for. */
  lemma {:induction false} LastWriteIsLastSave(saves: seq<SaveRequest>, digest: string, bucket: string)
    requires forall i | 0 <= i < |saves| :: Separator !in saves[i].digest
    requires Separator !in digest
    ensures KeyValueStore.LastWrite(Writes(saves), Key(digest, bucket), None) == LastSave(saves, digest, bucket)
    decreases |saves|
  {
    if |saves| > 0 {
      var n := |saves|;
      var last := saves[n - 1];
      assert Writes(saves)[..n - 1] == Writes(saves[..n - 1]);
      LastWriteIsLastSave(saves[..n - 1], digest, bucket);
      if (last.digest, last.bucket) != (digest, bucket) {
        KeyInjective(last.digest, last.bucket, digest, bucket);
      }
    }
  }
}

=== FILE: digest_key.dfy ===
/** The lookup key of the dedup index: the payload digest string, a
    literal `|`, then the bucket (a namespace such as a collection), whose
    default is the empty string. The embedded and the distributed backend
    build it the same way. */
module DigestKey {
  import opened Wrappers
  import Strings

  const Separator: char := '|'
  const DefaultBucket: string := ""

  /** `digest_key + "|" + bucket`. */
  function Key(digest: string, bucket: string): (k: string)
    ensures |k| == |digest| + 1 + |bucket|
    ensures k[..|digest|] == digest && k[|digest|] == Separator
    ensures k[|digest| + 1..] == bucket
  {
    digest + [Separator] + bucket
  }

  /** Reads a key back into (digest, bucket) by cutting at its first
      separator; `None` for a string with no separator. */
  function ParseKey(k: string): (r: Option<(string, string)>)
    ensures r.Some? <==> Separator in k
    ensures r.Some? ==> Separator !in r.value.0
    ensures r.Some? ==> Key(r.value.0, r.value.1) == k
  {
    if Separator in k then
      var i := Strings.IndexOf(k, Separator);
      Some((k[..i], k[i + 1..]))
    else None
  }

  /** For a digest free of the separator (every `sha1:`/`sha256:` digest
      string is), the key determines the digest and the bucket. The bucket
      itself may contain the separator. */
  lemma KeyRoundTrip(digest: string, bucket: string)
    requires Separator !in digest
    ensures ParseKey(Key(digest, bucket)) == Some((digest, bucket))
  {
    Strings.IndexOfUnique(Key(digest, bucket), Separator, |digest|);
  }

  /** Distinct (digest, bucket) pairs give distinct keys, so buckets are
      independent namespaces. */
  lemma KeyInjective(d1: string, b1: string, d2: string, b2: string)
    requires Separator !in d1 && Separator !in d2
    requires (d1, b1) != (d2, b2)
    ensures Key(d1, b1) != Key(d2, b2)
  {
    KeyRoundTrip(d1, b1);
    KeyRoundTrip(d2, b2);
  }

  /** Under one digest, distinct buckets give distinct keys, whatever
      characters either holds. */
  lemma SameDigestKeysDiffer(digest: string, b1: string, b2: string)
    requires b1 != b2
    ensures Key(digest, b1) != Key(digest, b2)
  {
    assert Key(digest, b1)[|digest| + 1..] == b1;
    assert Key(digest, b2)[|digest| + 1..] == b2;
  }

  /** Without the separator-free digest the keys can collide: the pairs
      ("a|b", "c") and ("a", "b|c") share the key "a|b|c". */
  lemma SeparatorInDigestCollides()
    ensures Key("a|b", "c") == Key("a", "b|c") == "a|b|c"
  {
  }
}

=== FILE: key_value_store.dfy ===
/** The storage engines behind the writing backends, reduced to what the
    index uses of them: a map from key strings to values with an
    insert-or-replace write and a point read that answers `None` on a
    miss. */
module KeyValueStore {
  import opened Wrappers

  /** Point read: the value under `k`, `None` when there is none. */
  function Get<V>(m: map<string, V>, k: string): (r: Option<V>)
    ensures r.Some? <==> k in m
    ensures r.Some? ==> r.value == m[k]
  {
    if k in m then Some(m[k]) else None
  }

  /** Insert-or-replace: afterwards `k` reads `v`, every other key reads
      what it read before. */
  function Put<V>(m: map<string, V>, k: string, v: V): (m': map<string, V>)
    ensures Get(m', k) == Some(v)
    ensures forall k' | k' != k :: Get(m', k') == Get(m, k')
    ensures m'.Keys == m.Keys + {k}
  {
    m[k := v]
  }

  /** A sequence of writes applied in order. */
  function PutAll<V>(m: map<string, V>, writes: seq<(string, V)>): map<string, V>
    decreases |writes|
  {
    if |writes| == 0 then m
    else PutAll(Put(m, writes[0].0, writes[0].1), writes[1..])
  }

  /** The value of the last write to `k` in `writes`, or `prior` when
      there is none: the reference meaning of last-writer-wins. */
  function LastWrite<V>(writes: seq<(string, V)>, k: string, prior: Option<V>): Option<V>
    decreases |writes|
  {
    if |writes| == 0 then prior
    else if writes[|writes| - 1].0 == k then Some(writes[|writes| - 1].1)
    else LastWrite(writes[..|writes| - 1], k, prior)
  }

  /** Last writer wins: after any sequence of writes a key reads the value
      of the last write to it, and a key nobody wrote reads what it read
      before. */
  lemma {:induction false} PutAllLastWriterWins<V>(m: map<string, V>, writes: seq<(string, V)>, k: string)
    ensures Get(PutAll(m, writes), k) == LastWrite(writes, k, Get(m, k))
    decreases |writes|
  {
    if |writes| > 0 {
      var m1 := Put(m, writes[0].0, writes[0].1);
      PutAllLastWriterWins(m1, writes[1..], k);
      LastWriteFirst(writes, k, Get(m, k));
    }
  }

  /** Peeling the first write off: it only decides the outcome when no
      later write touches the key. */
  lemma {:induction false} LastWriteFirst<V>(writes: seq<(string, V)>, k: string, prior: Option<V>)
    requires |writes| > 0
    ensures LastWrite(writes, k, prior)
         == LastWrite(writes[1..], k, if writes[0].0 == k then Some(writes[0].1) else prior)
    decreases |writes|
  {
    if |writes| > 1 {
      var n := |writes|;
      assert writes[1..][..n - 2] == writes[..n - 1][1..];
      LastWriteFirst(writes[..n - 1], k, prior);
    }
  }

  /** A key no write touches reads as a miss in a store that started
      empty: absence is an answer, not an error. */
  lemma NeverWrittenIsAbsent<V>(writes: seq<(string, V)>, k: string)
    requires forall i | 0 <= i < |writes| :: writes[i].0 != k
    ensures Get(PutAll(map[], writes), k) == None
  {
    PutAllLastWriterWins(map[], writes, k);
    NoWriteKeepsPrior(writes, k, None);
  }

  lemma {:induction false} NoWriteKeepsPrior<V>(writes: seq<(string, V)>, k: string, prior: Option<V>)
    requires forall i | 0 <= i < |writes| :: writes[i].0 != k
    ensures LastWrite(writes, k, prior) == prior
    decreases |writes|
  {
    if |writes| > 0 {
      NoWriteKeepsPrior(writes[..|writes| - 1], k, prior);
    }
  }
}

=== FILE: rethink_dedup_db.dfy ===
/** The distributed (RethinkDB) backend, `RethinkDedupDb`: the table is a
    map from primary key to stored document, the cluster is reduced to its
    server count, and the result document of each insert is an input. */
module RethinkDedupDb {
  import opened Wrappers
  import opened DigestKey
  import opened Capture
  import KeyValueStore

  const DefaultTable: string := "dedup"

  /** Where documents go and how the table is provisioned. */
  datatype Config = Config(table: string, shards: int, replicas: int)

  /** Python `given or fallback` for an optional integer argument: `None`
      and `0` are both false, so both fall back. */
  function OrElse(given: Option<int>, fallback: int): int {
    if given.Some? && given.value != 0 then given.value else fallback
  }

  /** The constructor's configuration. An omitted table name (`None`)
      is `dedup`; an explicit non-zero shard or replica count is kept;
      otherwise shards default to the number of servers and replicas to
      that number capped at three. */
  function NewConfig(serverCount: nat, table: Option<string>, shards: Option<int>, replicas: Option<int>): (c: Config)
    ensures table.Some? ==> c.table == table.value
    ensures table.None? ==> c.table == DefaultTable
    ensures shards.Some? && shards.value != 0 ==> c.shards == shards.value
    ensures replicas.Some? && replicas.value != 0 ==> c.replicas == replicas.value
    ensures (shards.None? || shards.value == 0) ==> c.shards == serverCount
    ensures (replicas.None? || replicas.value == 0) ==>
              c.replicas <= 3 && c.replicas <= serverCount
              && (c.replicas == 3 || c.replicas == serverCount)
    ensures shards.None? && replicas.None? ==> 0 <= c.replicas <= c.shards
    ensures shards.None? && replicas.None? && serverCount > 0 ==> c.replicas >= 1
  {
    Config(table.GetOr(DefaultTable), OrElse(shards, serverCount), OrElse(replicas, if serverCount < 3 then serverCount else 3))
  }

  /** A stored document: the primary key and the record fields. */
  datatype Document = Document(key: string, record: DedupRecord)

  datatype Db = Db(config: Config, docs: map<string, Document>)

  /** The constructor on a cluster whose table `_ensure_db_table` has just
      created: the configuration of `NewConfig` and no documents, so every
      lookup misses. */
  function New(serverCount: nat, table: Option<string>, shards: Option<int>, replicas: Option<int>): (db: Db)
    ensures db.config == NewConfig(serverCount, table, shards, replicas)
    ensures WellKeyed(db)
    ensures forall d, b :: Lookup(db, d, b).None?
  {
    Db(NewConfig(serverCount, table, shards, replicas), map[])
  }

  /** Every document sits under its own key. */
  predicate WellKeyed(db: Db) {
    forall k | k in db.docs :: db.docs[k].key == k
  }

  /** The counters of an insert's result document (`unchangedRows` is
      the `unchanged` counter). */
  datatype WriteResult = WriteResult(inserted: nat, replaced: nat, unchangedRows: nat,
                                     errors: nat, deleted: nat, skipped: nat)

  /** `result.values()`. */
  function Counters(w: WriteResult): seq<int> {
    [w.inserted, w.replaced, w.unchangedRows, w.errors, w.deleted, w.skipped]
  }

  /** The sorted counters of a result that touched exactly one row. */
  const OneRow: seq<int> := [0, 0, 0, 0, 0, 1]

  predicate IsSorted(xs: seq<int>) {
    forall i, j | 0 <= i < j < |xs| :: xs[i] <= xs[j]
  }

  function Sum(xs: seq<int>): int {
    if |xs| == 0 then 0 else xs[0] + Sum(xs[1..])
  }

  function Insert(x: int, xs: seq<int>): (r: seq<int>)
    requires IsSorted(xs)
    ensures IsSorted(r) && |r| == |xs| + 1 && Sum(r) == x + Sum(xs)
    ensures forall y | y in r :: y == x || y in xs
  {
    if |xs| == 0 || x <= xs[0] then [x] + xs
    else
      var rest := Insert(x, xs[1..]);
      assert forall i | 0 <= i < |rest| :: xs[0] <= rest[i] by {
        forall i | 0 <= i < |rest|
          ensures xs[0] <= rest[i]
        {
          assert rest[i] in rest;
        }
      }
      var r := [xs[0]] + rest;
      assert r[1..] == rest;
      r
  }

  /** Python `sorted`: the counters in ascending order, the same number
      of them, with the same total, each taken from the input. */
  function Sort(xs: seq<int>): (r: seq<int>)
    ensures IsSorted(r) && |r| == |xs| && Sum(r) == Sum(xs)
    ensures forall y | y in r :: y in xs
  {
    if |xs| == 0 then []
    else Insert(xs[0], Sort(xs[1..]))
  }

  lemma {:induction false} InsertPermutes(x: int, xs: seq<int>)
    requires IsSorted(xs)
    ensures multiset(Insert(x, xs)) == multiset{x} + multiset(xs)
    decreases |xs|
  {
    if |xs| > 0 && x > xs[0] {
      InsertPermutes(x, xs[1..]);
      assert Insert(x, xs) == [xs[0]] + Insert(x, xs[1..]);
      assert xs == [xs[0]] + xs[1..];
    }
  }

  /** `sorted` rearranges its input: the result holds the same values,
      each as often as the input does. */
  lemma {:induction false} SortPermutes(xs: seq<int>)
    ensures multiset(Sort(xs)) == multiset(xs)
    decreases |xs|
  {
    if |xs| > 0 {
      SortPermutes(xs[1..]);
      InsertPermutes(xs[0], Sort(xs[1..]));
      assert xs == [xs[0]] + xs[1..];
    }
  }

  /** A sorted sequence of non-negative numbers totalling one is zeros
      followed by a single one. */
  lemma {:induction false} SortedUnitSum(s: seq<int>)
    requires IsSorted(s) && Sum(s) == 1
    requires forall y | y in s :: y >= 0
    ensures |s| >= 1 && s == seq(|s| - 1, _ => 0) + [1]
    decreases |s|
  {
    assert |s| > 0;
    assert s[0] >= 0 by { assert s[0] in s; }
    if |s| == 1 {
      assert s == [s[0]];
    } else {
      SumFirstTwo(s);
      assert s[0] <= s[1];
      assert forall y | y in s[1..] :: y in s;
      SortedUnitSum(s[1..]);
      assert s == [0] + s[1..];
    }
  }

  /** For non-negative numbers the total is at least the first two. */
  lemma SumFirstTwo(s: seq<int>)
    requires |s| >= 2
    requires forall y | y in s :: y >= 0
    ensures Sum(s) >= s[0] + s[1]
  {
    assert s[1..][1..] == s[2..];
    assert forall y | y in s[2..] :: y in s;
    NonNegativeSum(s[2..]);
  }

  lemma {:induction false} NonNegativeSum(s: seq<int>)
    requires forall y | y in s :: y >= 0
    ensures Sum(s) >= 0
    decreases |s|
  {
    if |s| > 0 {
      assert s[0] in s;
      assert forall y | y in s[1..] :: y in s;
      NonNegativeSum(s[1..]);
    }
  }

  /** Non-negative numbers, sorted, read zeros and a final one exactly
      when they total one. */
  lemma SortIsUnitIffSumIsOne(xs: seq<int>)
    requires |xs| >= 1
    requires forall y | y in xs :: y >= 0
    ensures Sort(xs) == seq(|xs| - 1, _ => 0) + [1] <==> Sum(xs) == 1
  {
    var s := Sort(xs);
    if Sum(xs) == 1 {
      SortedUnitSum(s);
    }
    var u := seq(|xs| - 1, _ => 0) + [1];
    if s == u {
      UnitSum(|xs| - 1);
    }
  }

  lemma {:induction false} UnitSum(n: nat)
    ensures Sum(seq(n, _ => 0) + [1]) == 1
  {
    if n > 0 {
      assert (seq(n, _ => 0) + [1])[1..] == seq(n - 1, _ => 0) + [1];
      UnitSum(n - 1);
    }
  }

  /** The counters total one exactly when, sorted, they read
      `[0,0,0,0,0,1]`. */
  lemma SortedIsOneRow(w: WriteResult)
    ensures Sort(Counters(w)) == OneRow <==> Total(w) == 1
  {
    var c := Counters(w);
    assert forall y | y in c :: y >= 0;
    assert OneRow == seq(5, _ => 0) + [1];
    SortIsUnitIffSumIsOne(c);
    CountersSum(w);
  }

  lemma CountersSum(w: WriteResult)
    ensures Sum(Counters(w)) == Total(w)
  {
    var tail := [w.skipped];
    SumCons(w.skipped, []);
    SumCons(w.deleted, tail);
    tail := [w.deleted] + tail;
    SumCons(w.errors, tail);
    tail := [w.errors] + tail;
    SumCons(w.unchangedRows, tail);
    tail := [w.unchangedRows] + tail;
    SumCons(w.replaced, tail);
    tail := [w.replaced] + tail;
    SumCons(w.inserted, tail);
    assert Counters(w) == [w.inserted] + tail;
  }

  lemma SumCons(x: int, xs: seq<int>)
    ensures Sum([x] + xs) == x + Sum(xs)
  {
    assert ([x] + xs)[1..] == xs;
  }

  /** The sum of the counters. */
  function Total(w: WriteResult): nat {
    w.inserted + w.replaced + w.unchangedRows + w.errors + w.deleted + w.skipped
  }

  /** The check after the insert, as written: it raises only when the
      sorted counters are not five zeros and a one AND some deletion,
      skip or error was reported. */
  predicate CheckRejects(w: WriteResult) {
    && Sort(Counters(w)) != OneRow
    && [w.deleted, w.skipped, w.errors] != [0, 0, 0]
  }

  /** The insert result of a write that stored the document: exactly one
      row inserted, replaced or left unchanged, and no error. A result
      reporting an error, or no row at all, stored nothing. */
  predicate Written(w: WriteResult) {
    w.inserted + w.replaced + w.unchangedRows == 1 && w.errors == 0
  }

  /** The check as evidently intended: anything but one inserted,
      replaced or unchanged row with nothing deleted, skipped or errored
      is an error. */
  predicate IntendedCheckRejects(w: WriteResult) {
    !(w.inserted + w.replaced + w.unchangedRows == 1 && w.deleted == 0 && w.skipped == 0 && w.errors == 0)
  }

  /** What the check as written lets through: every result with no
      deletion, skip or error (however many rows it claims, none
      included), and every result whose only non-zero counter is a single
      deletion, skip or error. */
  lemma CheckAccepts(w: WriteResult)
    ensures !CheckRejects(w) <==>
              (w.deleted == 0 && w.skipped == 0 && w.errors == 0)
              || (w.inserted == 0 && w.replaced == 0 && w.unchangedRows == 0
                  && w.deleted + w.skipped + w.errors == 1)
  {
    SortedIsOneRow(w);
  }

  /** An insert result holding only the six counters and reporting one
      error passes the check as written, so `save` returns without raising
      although nothing was stored: a lookup still misses a key that was
      absent. The intended check rejects it. */
  lemma ErrorOnlyResultAccepted(db: Db, digest: string, rec: WarcRecord, bucket: string)
    ensures !CheckRejects(WriteResult(0, 0, 0, 1, 0, 0))
    ensures Save(db, digest, rec, bucket, WriteResult(0, 0, 0, 1, 0, 0)) == Success(db)
    ensures Key(digest, bucket) !in db.docs ==>
              Lookup(Save(db, digest, rec, bucket, WriteResult(0, 0, 0, 1, 0, 0)).value, digest, bucket) == None
    ensures IntendedCheckRejects(WriteResult(0, 0, 0, 1, 0, 0))
    ensures SaveIntended(db, digest, rec, bucket, WriteResult(0, 0, 0, 1, 0, 0)).Failure?
  {
    CheckAccepts(WriteResult(0, 0, 0, 1, 0, 0));
  }

  /** The intended check rejects everything the written one rejects, and
      accepts only results that changed exactly one row cleanly. */
  lemma IntendedCheckIsStricter(w: WriteResult)
    ensures CheckRejects(w) ==> IntendedCheckRejects(w)
    ensures !IntendedCheckRejects(w) ==>
              w.errors == 0 && w.deleted == 0 && w.skipped == 0
              && (w.inserted == 1 || w.replaced == 1 || w.unchangedRows == 1)
              && Sort(Counters(w)) == OneRow
  {
    SortedIsOneRow(w);
    CheckAccepts(w);
  }

  /** `lookup(digest_key, bucket)`: the stored document under the key of
      (digest, bucket), or `None`. */
  function Lookup(db: Db, digest: string, bucket: string): (r: Option<Document>)
    ensures r.Some? <==> Key(digest, bucket) in db.docs
    ensures r.Some? ==> r.value == db.docs[Key(digest, bucket)]
    ensures r.Some? && WellKeyed(db) ==> r.value.key == Key(digest, bucket)
  {
    KeyValueStore.Get(db.docs, Key(digest, bucket))
  }

  /** Insert-or-replace the document for (digest, bucket). */
  function Upsert(db: Db, digest: string, rec: WarcRecord, bucket: string): (db': Db)
    ensures db'.config == db.config
    ensures WellKeyed(db) ==> WellKeyed(db')
    ensures Lookup(db', digest, bucket) == Some(Document(Key(digest, bucket), Entry(rec)))
    ensures forall d, b | Key(d, b) != Key(digest, bucket) :: Lookup(db', d, b) == Lookup(db, d, b)
  {
    var k := Key(digest, bucket);
    Db(db.config, KeyValueStore.Put(db.docs, k, Document(k, Entry(rec))))
  }

  /** `save(digest_key, response_record, bucket)` given the result the
      cluster reports for the insert: it raises exactly when the check as
      written rejects the result. When it returns, the document for
      (digest, bucket) holds the record's fields if the result reports the
      write, and the table is as before if it does not; every other key
      is as before either way. */
  function Save(db: Db, digest: string, rec: WarcRecord, bucket: string, w: WriteResult): (r: Result<Db, Fault>)
    ensures r.Failure? <==> CheckRejects(w)
    ensures r.Failure? ==> r.error == UnexpectedWriteResult
    ensures r.Success? ==> r.value.config == db.config && (WellKeyed(db) ==> WellKeyed(r.value))
    ensures r.Success? && Written(w) ==> Lookup(r.value, digest, bucket) == Some(Document(Key(digest, bucket), Entry(rec)))
    ensures r.Success? && !Written(w) ==> r.value == db
    ensures r.Success? ==> forall d, b | Key(d, b) != Key(digest, bucket) :: Lookup(r.value, d, b) == Lookup(db, d, b)
  {
    if CheckRejects(w) then Failure(UnexpectedWriteResult)
    else if Written(w) then Success(Upsert(db, digest, rec, bucket))
    else Success(db)
  }

  /** `save` with the intended check: it raises exactly when the result
      is not a clean one-row write, and then always stores the record. */
  function SaveIntended(db: Db, digest: string, rec: WarcRecord, bucket: string, w: WriteResult): (r: Result<Db, Fault>)
    ensures r.Failure? <==> IntendedCheckRejects(w)
    ensures r.Success? ==> w.errors == 0 && w.deleted == 0 && w.skipped == 0
                           && w.inserted + w.replaced + w.unchangedRows == 1
    ensures r.Success? ==> Lookup(r.value, digest, bucket) == Some(Document(Key(digest, bucket), Entry(rec)))
    ensures r.Success? ==> forall d, b | Key(d, b) != Key(digest, bucket) :: Lookup(r.value, d, b) == Lookup(db, d, b)
    ensures Save(db, digest, rec, bucket, w).Failure? ==> r.Failure?
    ensures r.Success? ==> r == Save(db, digest, rec, bucket, w)
  {
    IntendedCheckIsStricter(w);
    if IntendedCheckRejects(w) then Failure(UnexpectedWriteResult)
    else Success(Upsert(db, digest, rec, bucket))
  }

  /** `notify(recorded_url, records)`: the same eligibility rule as the
      embedded backend, then `save`. A capture the rule skips never
      reaches the check. */
  function Notify(db: Db, e: RecordedUrl, records: seq<WarcRecord>, w: WriteResult): (r: Result<Db, Fault>)
    ensures NotifyRequest(e, records) == Success(None) ==> r == Success(db)
    ensures r.Success? && !Eligible(e, records) ==> r.value == db
    ensures Eligible(e, records) && e.recorder.value.payloadDigest.Some? ==>
              r == Save(db, e.recorder.value.payloadDigest.value, records[0], Bucket(e.warcproxMeta), w)
    ensures NotifyRequest(e, records).Failure? ==> r == Failure(NotifyRequest(e, records).error)
    ensures r.Failure? ==> NotifyRequest(e, records).Failure? || CheckRejects(w)
  {
    match NotifyRequest(e, records)
    case Failure(f) => Failure(f)
    case Success(None) => Success(db)
    case Success(Some(req)) => Save(db, req.digest, req.record, req.bucket, w)
  }

  /** After two accepted saves under the same digest and bucket, the
      second of which reports a write, the table is as if only the second
      had happened: only the second record is retrievable. */
  lemma LastWriterWins(db: Db, digest: string, bucket: string, first: WarcRecord, second: WarcRecord, w1: WriteResult, w2: WriteResult)
    requires !CheckRejects(w1) && !CheckRejects(w2) && Written(w2)
    ensures Save(db, digest, first, bucket, w1).Success?
    ensures Save(Save(db, digest, first, bucket, w1).value, digest, second, bucket, w2)
         == Save(db, digest, second, bucket, w2)
  {
    var k := Key(digest, bucket);
    if Written(w1) {
      assert Upsert(Upsert(db, digest, first, bucket), digest, second, bucket) == Upsert(db, digest, second, bucket) by {
        assert db.docs[k := Document(k, Entry(first))][k := Document(k, Entry(second))]
            == db.docs[k := Document(k, Entry(second))];
      }
    }
  }

  /** A save in one bucket is invisible from every other bucket of the
      same digest. */
  lemma BucketsIsolated(db: Db, digest: string, rec: WarcRecord, saved: string, other: string, w: WriteResult)
    requires saved != other
    ensures Save(db, digest, rec, saved, w).Success? ==>
              Lookup(Save(db, digest, rec, saved, w).value, digest, other) == Lookup(db, digest, other)
  {
    SameDigestKeysDiffer(digest, saved, other);
  }
}

=== FILE: strings.dfy ===
/** The handful of Python string operations the dedup index relies on,
    stated over `seq<char>`: `str.split` on a one-character separator,
    the matching `join`, `int()` of a decimal numeral, zero-padded decimal
    rendering (as `strftime` does for `%m`, `%d`, ...), slicing from an
    index, and the position of the first occurrence of a character. */
module Strings {
  import opened Wrappers

  predicate IsDigit(c: char) {
    '0' <= c <= '9'
  }

  predicate AllDigits(s: string) {
    forall i | 0 <= i < |s| :: IsDigit(s[i])
  }

  function DigitValue(c: char): (d: nat)
    requires IsDigit(c)
    ensures d < 10
  {
    c as int - '0' as int
  }

  function DigitChar(d: nat): (c: char)
    requires d < 10
    ensures IsDigit(c) && DigitValue(c) == d
  {
    ('0' as int + d) as char
  }

  function Pow10(n: nat): (p: nat)
    ensures p >= 1
  {
    if n == 0 then 1 else 10 * Pow10(n - 1)
  }

  lemma Pow10Small()
    ensures Pow10(2) == 100 && Pow10(4) == 10000
  {
    assert Pow10(1) == 10;
    assert Pow10(3) == 1000;
  }

  /** The number a string of decimal digits denotes (the empty string
      denotes 0); it always fits in as many digits as the string has. */
  function Value(s: string): (v: nat)
    requires AllDigits(s)
    ensures v < Pow10(|s|)
    decreases |s|
  {
    if |s| == 0 then 0
    else
      var prefix := Value(s[..|s| - 1]);
      var last := DigitValue(s[|s| - 1]);
      assert prefix * 10 + last < Pow10(|s| - 1) * 10 by {
        assert prefix <= Pow10(|s| - 1) - 1;
      }
      prefix * 10 + last
  }

  /** Python `int(s)` for a string that is meant to hold a decimal
      numeral: a number when `s` is a non-empty run of ASCII digits, and
      `None` (a `ValueError` in Python) otherwise. */
  function ParseNat(s: string): (r: Option<nat>)
    ensures r.Some? <==> |s| > 0 && AllDigits(s)
    ensures r.Some? ==> r.value == Value(s) && r.value < Pow10(|s|)
  {
    if |s| > 0 && AllDigits(s) then Some(Value(s)) else None
  }

  /** `int()` reads a zero-padded rendering back as the number. */
  lemma ParseRender(n: nat, width: nat)
    requires 0 < width && n < Pow10(width)
    ensures ParseNat(Render(n, width)) == Some(n)
  {
    RenderDigits(n, width);
  }

  /** A numeral `int()` accepts is the zero-padded rendering of its value
      at its own width. */
  lemma RenderParse(s: string)
    requires ParseNat(s).Some?
    ensures Render(ParseNat(s).value, |s|) == s
  {
    RenderValue(s);
  }

  /** `n` written in decimal, left-padded with zeros to exactly `width`
      characters. */
  function Render(n: nat, width: nat): (r: string)
    requires n < Pow10(width)
    ensures |r| == width
    decreases width
  {
    if width == 0 then "" else Render(n / 10, width - 1) + [DigitChar(n % 10)]
  }

  /** The rendering is a digit string denoting `n`. */
  lemma {:induction false} RenderDigits(n: nat, width: nat)
    requires n < Pow10(width)
    ensures AllDigits(Render(n, width)) && Value(Render(n, width)) == n
    decreases width
  {
    if width > 0 {
      var init := Render(n / 10, width - 1);
      var r := Render(n, width);
      RenderDigits(n / 10, width - 1);
      assert r == init + [DigitChar(n % 10)];
      assert r[..|r| - 1] == init;
    }
  }

  /** Rendering the value of a digit string at its own width gives the
      string back: the zero-padded rendering is the only one. */
  lemma {:induction false} RenderValue(s: string)
    requires AllDigits(s)
    ensures Render(Value(s), |s|) == s
    decreases |s|
  {
    if |s| > 0 {
      var init := s[..|s| - 1];
      RenderValue(init);
      assert Value(s) / 10 == Value(init);
      assert Value(s) % 10 == DigitValue(s[|s| - 1]);
      assert s == init + [s[|s| - 1]];
    }
  }

  /** Python `s[n:]`: the suffix after the first `n` characters, or the
      empty string when `s` is shorter than `n`. */
  function Drop(s: string, n: nat): (r: string)
    ensures n <= |s| ==> r == s[n..]
    ensures n > |s| ==> r == ""
  {
    if n <= |s| then s[n..] else ""
  }

  /** The position of the first occurrence of `c` in `s`. */
  function IndexOf(s: string, c: char): (i: nat)
    requires c in s
    ensures i < |s| && s[i] == c && c !in s[..i]
  {
    if s[0] == c then 0
    else
      var i := 1 + IndexOf(s[1..], c);
      assert s[..i] == [s[0]] + s[1..][..i - 1];
      i
  }

  /** Any position holding `c` with no `c` before it is the first one. */
  lemma IndexOfUnique(s: string, c: char, j: nat)
    requires j < |s| && s[j] == c && c !in s[..j]
    ensures c in s && IndexOf(s, c) == j
  {
    assert s[j] in s;
    var i := IndexOf(s, c);
    assert forall k | 0 <= k < j :: s[..j][k] == s[k];
    assert forall k | 0 <= k < i :: s[..i][k] == s[k];
  }

  /** Python `sep.join(parts)` for a one-character separator. */
  function Join(parts: seq<string>, sep: char): string
  {
    if |parts| == 0 then ""
    else if |parts| == 1 then parts[0]
    else parts[0] + [sep] + Join(parts[1..], sep)
  }

  /** Python `s.split(sep)` for a one-character separator: the pieces
      between separators, including empty ones, never fewer than one. */
  function Split(s: string, sep: char): (parts: seq<string>)
    ensures |parts| >= 1
    ensures forall i | 0 <= i < |parts| :: sep !in parts[i]
    ensures Join(parts, sep) == s
    decreases |s|
  {
    if sep !in s then [s]
    else
      var i := IndexOf(s, sep);
      var rest := Split(s[i + 1..], sep);
      var parts := [s[..i]] + rest;
      assert parts[1..] == rest;
      assert s == s[..i] + [sep] + s[i + 1..];
      parts
  }

  /** Splitting a joined sequence of separator-free pieces recovers the
      pieces: `Split` and `Join` are inverse on these inputs. */
  lemma {:induction false} SplitJoin(parts: seq<string>, sep: char)
    requires |parts| >= 1
    requires forall i | 0 <= i < |parts| :: sep !in parts[i]
    ensures Split(Join(parts, sep), sep) == parts
    decreases |parts|
  {
    var s := Join(parts, sep);
    if |parts| == 1 {
      assert s == parts[0];
    } else {
      var p := parts[0];
      var rest := parts[1..];
      var tail := Join(rest, sep);
      assert s == p + [sep] + tail;
      assert s[..|p|] == p;
      assert s[|p|] == sep;
      IndexOfUnique(s, sep, |p|);
      assert s[|p| + 1..] == tail;
      assert forall i | 0 <= i < |rest| :: rest[i] == parts[i + 1];
      SplitJoin(rest, sep);
      assert Split(s, sep) == [p] + Split(tail, sep);
      assert parts == [p] + rest;
    }
  }
}

=== FILE: timestamp.dfy ===
/** The CDX timestamp handling of the remote-archive backend:
    `_split_timestamp` cuts a `YYYY...MMDDhhmmss` string into six integers
    (the year is everything before the last ten characters), `datetime`
    rejects out-of-range calendar fields, and `strftime` writes the
    result as `YYYY-MM-DDThh:mm:ssZ`. */
module Timestamp {
  import opened Wrappers
  import opened Strings
  import opened Capture

  /** Six calendar fields, not yet checked against the calendar. */
  datatype DateTime = DateTime(year: int, month: int, day: int, hour: int, minute: int, second: int)

  const MinYear: int := 1
  const MaxYear: int := 9999

  predicate IsLeapYear(y: int) {
    y % 4 == 0 && (y % 100 != 0 || y % 400 == 0)
  }

  function DaysInMonth(y: int, m: int): int
    requires 1 <= m <= 12
  {
    if m == 2 then (if IsLeapYear(y) then 29 else 28)
    else if m == 4 || m == 6 || m == 9 || m == 11 then 30
    else 31
  }

  /** The fields `datetime(year, month, day, hour, minute, second)`
      accepts. */
  predicate Valid(dt: DateTime) {
    && MinYear <= dt.year <= MaxYear
    && 1 <= dt.month <= 12
    && 1 <= dt.day <= DaysInMonth(dt.year, dt.month)
    && 0 <= dt.hour <= 23
    && 0 <= dt.minute <= 59
    && 0 <= dt.second <= 59
  }

  /** `_split_timestamp(ts)`: the six integer fields `int(ts[:-10])`,
      `int(ts[-10:-8])`, ..., `int(ts[-2:])`, or the `ValueError` of
      `int()` when a field is empty or not a numeral. The year field is
      empty, and so fails, for strings of ten characters or fewer. */
  function SplitTimestamp(ts: string): (r: Result<DateTime, Fault>)
    ensures r.Failure? ==> r.error == BadTimestamp
    ensures r.Success? ==> |ts| > 10 && r.value.year >= 0 && 0 <= r.value.month < 100
                           && 0 <= r.value.day < 100 && 0 <= r.value.hour < 100
                           && 0 <= r.value.minute < 100 && 0 <= r.value.second < 100
    ensures r.Success? ==>
              var n := |ts|;
              && ParseNat(ts[..n - 10]) == Some(r.value.year as nat)
              && ParseNat(ts[n - 10..n - 8]) == Some(r.value.month as nat)
              && ParseNat(ts[n - 8..n - 6]) == Some(r.value.day as nat)
              && ParseNat(ts[n - 6..n - 4]) == Some(r.value.hour as nat)
              && ParseNat(ts[n - 4..n - 2]) == Some(r.value.minute as nat)
              && ParseNat(ts[n - 2..]) == Some(r.value.second as nat)
  {
    Pow10Small();
    var n := |ts|;
    if n <= 10 then Failure(BadTimestamp)
    else
      var year := ParseNat(ts[..n - 10]);
      var month := ParseNat(ts[n - 10..n - 8]);
      var day := ParseNat(ts[n - 8..n - 6]);
      var hour := ParseNat(ts[n - 6..n - 4]);
      var minute := ParseNat(ts[n - 4..n - 2]);
      var second := ParseNat(ts[n - 2..]);
      if year.None? || month.None? || day.None? || hour.None? || minute.None? || second.None? then
        Failure(BadTimestamp)
      else
        Success(DateTime(year.value, month.value, day.value, hour.value, minute.value, second.value))
  }

  /** The split succeeds exactly on digit strings longer than ten
      characters. */
  lemma SplitTimestampDomain(ts: string)
    ensures SplitTimestamp(ts).Success? <==> |ts| > 10 && AllDigits(ts)
  {
    var n := |ts|;
    if n > 10 {
      var cuts := [ts[..n - 10], ts[n - 10..n - 8], ts[n - 8..n - 6], ts[n - 6..n - 4], ts[n - 4..n - 2], ts[n - 2..]];
      if SplitTimestamp(ts).Success? {
        forall i | 0 <= i < n
          ensures IsDigit(ts[i])
        {
          if i < n - 10 { assert ts[..n - 10][i] == ts[i]; }
          else if i < n - 8 { assert ts[n - 10..n - 8][i - (n - 10)] == ts[i]; }
          else if i < n - 6 { assert ts[n - 8..n - 6][i - (n - 8)] == ts[i]; }
          else if i < n - 4 { assert ts[n - 6..n - 4][i - (n - 6)] == ts[i]; }
          else if i < n - 2 { assert ts[n - 4..n - 2][i - (n - 4)] == ts[i]; }
          else { assert ts[n - 2..][i - (n - 2)] == ts[i]; }
        }
      }
    }
  }

  /** Fields small enough to write as a fourteen-digit CDX timestamp. */
  predicate FitsCdx(dt: DateTime) {
    && 0 <= dt.year < 10000
    && 0 <= dt.month < 100 && 0 <= dt.day < 100
    && 0 <= dt.hour < 100 && 0 <= dt.minute < 100 && 0 <= dt.second < 100
  }

  /** The fourteen-digit CDX form `YYYYMMDDhhmmss` of the fields. */
  function CdxForm(dt: DateTime): (ts: string)
    requires FitsCdx(dt)
    ensures |ts| == 14
  {
    Pow10Small();
    CdxLayout(Render(dt.year, 4), Render(dt.month, 2), Render(dt.day, 2),
              Render(dt.hour, 2), Render(dt.minute, 2), Render(dt.second, 2))
  }

  /** Six rendered fields written one after another. */
  function CdxLayout(y: string, mo: string, d: string, h: string, mi: string, se: string): (ts: string)
    requires |y| == 4 && |mo| == 2 && |d| == 2 && |h| == 2 && |mi| == 2 && |se| == 2
    ensures |ts| == 14
    ensures ts[..4] == y && ts[4..6] == mo && ts[6..8] == d
    ensures ts[8..10] == h && ts[10..12] == mi && ts[12..] == se
  {
    y + mo + d + h + mi + se
  }

  /** A fourteen-character string is the layout of its own slices. */
  lemma LayoutOfSlices(ts: string)
    requires |ts| == 14
    ensures CdxLayout(ts[..4], ts[4..6], ts[6..8], ts[8..10], ts[10..12], ts[12..]) == ts
  {
    assert ts == ts[..4] + ts[4..6] + ts[6..8] + ts[8..10] + ts[10..12] + ts[12..];
  }

  /** Splitting the CDX form gives the fields back. */
  lemma SplitCdxForm(dt: DateTime)
    requires FitsCdx(dt)
    ensures SplitTimestamp(CdxForm(dt)) == Success(dt)
  {
    Pow10Small();
    ParseRender(dt.year, 4);
    ParseRender(dt.month, 2);
    ParseRender(dt.day, 2);
    ParseRender(dt.hour, 2);
    ParseRender(dt.minute, 2);
    ParseRender(dt.second, 2);
    var ts := CdxForm(dt);
    assert ts == CdxLayout(Render(dt.year, 4), Render(dt.month, 2), Render(dt.day, 2),
                           Render(dt.hour, 2), Render(dt.minute, 2), Render(dt.second, 2));
  }

  /** Conversely a fourteen-character timestamp that splits is the CDX
      form of its fields: nothing is lost in the split. */
  lemma CdxFormOfSplit(ts: string)
    requires |ts| == 14 && SplitTimestamp(ts).Success?
    ensures FitsCdx(SplitTimestamp(ts).value)
    ensures CdxForm(SplitTimestamp(ts).value) == ts
  {
    var dt := SplitTimestamp(ts).value;
    Pow10Small();
    RenderParse(ts[..4]);
    RenderParse(ts[4..6]);
    RenderParse(ts[6..8]);
    RenderParse(ts[8..10]);
    RenderParse(ts[10..12]);
    RenderParse(ts[12..]);
    LayoutOfSlices(ts);
  }

  /** `datetime(*fields)`: the fields themselves when they name a real
      instant, the `ValueError` otherwise. */
  function NewDateTime(f: DateTime): (r: Result<DateTime, Fault>)
    ensures r.Success? ==> r.value == f && Valid(f)
    ensures r.Failure? ==> r.error == BadDate && !Valid(f)
  {
    if Valid(f) then Success(f) else Failure(BadDate)
  }

  /** `dt.strftime('%Y-%m-%dT%H:%M:%SZ')`: each field zero-padded to its
      width, between the format's literal characters. */
  function Strftime(dt: DateTime): (s: string)
    requires Valid(dt)
    ensures |s| == 20
    ensures s[4] == '-' && s[7] == '-' && s[10] == 'T'
    ensures s[13] == ':' && s[16] == ':' && s[19] == 'Z'
  {
    Pow10Small();
    IsoLayout(Render(dt.year, 4), Render(dt.month, 2), Render(dt.day, 2),
              Render(dt.hour, 2), Render(dt.minute, 2), Render(dt.second, 2))
  }

  /** Each field of the written date reads back with `int()` as the
      field's value. */
  lemma StrftimeReadsBack(dt: DateTime)
    requires Valid(dt)
    ensures var s := Strftime(dt);
            && ParseNat(s[..4]) == Some(dt.year as nat) && ParseNat(s[5..7]) == Some(dt.month as nat)
            && ParseNat(s[8..10]) == Some(dt.day as nat) && ParseNat(s[11..13]) == Some(dt.hour as nat)
            && ParseNat(s[14..16]) == Some(dt.minute as nat) && ParseNat(s[17..19]) == Some(dt.second as nat)
  {
    Pow10Small();
    ParseRender(dt.year, 4);
    ParseRender(dt.month, 2);
    ParseRender(dt.day, 2);
    ParseRender(dt.hour, 2);
    ParseRender(dt.minute, 2);
    ParseRender(dt.second, 2);
    assert Strftime(dt) == IsoLayout(Render(dt.year, 4), Render(dt.month, 2), Render(dt.day, 2),
                                     Render(dt.hour, 2), Render(dt.minute, 2), Render(dt.second, 2));
  }

  /** So the written date determines the instant: distinct instants are
      written differently. */
  lemma StrftimeInjective(d1: DateTime, d2: DateTime)
    requires Valid(d1) && Valid(d2) && Strftime(d1) == Strftime(d2)
    ensures d1 == d2
  {
    StrftimeReadsBack(d1);
    StrftimeReadsBack(d2);
  }

  /** The `%Y-%m-%dT%H:%M:%SZ` layout of six already-rendered fields. */
  function IsoLayout(y: string, mo: string, d: string, h: string, mi: string, se: string): (s: string)
    requires |y| == 4 && |mo| == 2 && |d| == 2 && |h| == 2 && |mi| == 2 && |se| == 2
    ensures |s| == 20
    ensures s[4] == '-' && s[7] == '-' && s[10] == 'T'
    ensures s[13] == ':' && s[16] == ':' && s[19] == 'Z'
    ensures s[..4] == y && s[5..7] == mo && s[8..10] == d
    ensures s[11..13] == h && s[14..16] == mi && s[17..19] == se
  {
    var front := y + "-" + mo + "-" + d + "T";
    var back := h + ":" + mi + ":" + se + "Z";
    assert front[..4] == y && front[5..7] == mo && front[8..10] == d;
    assert back[..2] == h && back[3..5] == mi && back[6..8] == se;
    var s := front + back;
    assert s[..11] == front && s[11..] == back;
    s
  }

  /** The date the CDX backend reports for a timestamp:
      `datetime(*_split_timestamp(ts)).strftime(...)`, or the exception on
      the way. */
  function CdxDate(ts: string): (r: Result<string, Fault>)
    ensures r.Failure? ==> r.error == BadTimestamp || r.error == BadDate
    ensures r.Success? ==> |r.value| == 20 && r.value[4] == '-' && r.value[10] == 'T' && r.value[19] == 'Z'
  {
    var fields := SplitTimestamp(ts);
    if fields.Failure? then Failure(fields.error)
    else
      var dt := NewDateTime(fields.value);
      if dt.Failure? then Failure(dt.error)
      else Success(Strftime(dt.value))
  }

  /** The CDX form of a real instant is reported as that instant. */
  lemma CdxDateOfCdxForm(dt: DateTime)
    requires Valid(dt)
    ensures CdxDate(CdxForm(dt)) == Success(Strftime(dt))
  {
    SplitCdxForm(dt);
  }

  /** A CDX timestamp at midnight on New Year's Day 2021,
      `20210101000000`, is reported as `2021-01-01T00:00:00Z`. */
  lemma NewYear2021()
    ensures CdxDate("20210101000000") == Success("2021-01-01T00:00:00Z")
  {
    var dt := DateTime(2021, 1, 1, 0, 0, 0);
    NewYearForms();
    CdxDateOfCdxForm(dt);
  }

  lemma NewYearForms()
    ensures Valid(DateTime(2021, 1, 1, 0, 0, 0))
    ensures CdxForm(DateTime(2021, 1, 1, 0, 0, 0)) == "20210101000000"
    ensures Strftime(DateTime(2021, 1, 1, 0, 0, 0)) == "2021-01-01T00:00:00Z"
  {
    NewYearCdxForm();
    NewYearIso();
  }

  lemma NewYearCdxForm()
    ensures CdxForm(DateTime(2021, 1, 1, 0, 0, 0)) == "20210101000000"
  {
    RenderedFields();
    assert CdxForm(DateTime(2021, 1, 1, 0, 0, 0)) == CdxLayout("2021", "01", "01", "00", "00", "00");
  }

  lemma NewYearIso()
    ensures Valid(DateTime(2021, 1, 1, 0, 0, 0))
    ensures Strftime(DateTime(2021, 1, 1, 0, 0, 0)) == "2021-01-01T00:00:00Z"
  {
    RenderedFields();
    assert Strftime(DateTime(2021, 1, 1, 0, 0, 0)) == IsoLayout("2021", "01", "01", "00", "00", "00");
  }

  lemma RenderedFields()
    ensures Render(2021, 4) == "2021" && Render(1, 2) == "01" && Render(0, 2) == "00"
  {
    RenderedYear();
    Pow10Small();
    assert Render(0, 1) == "0";
  }

  lemma RenderedYear()
    ensures Render(2021, 4) == "2021"
  {
    Pow10Small();
    assert Render(2, 1) == "2";
    assert Render(20, 2) == "20";
    assert Render(202, 3) == "202";
  }
}

=== FILE: wrappers.dfy ===
/** Failure-compatible wrappers used throughout the model: `Option` for the
    Python `None`-or-value results and `Result` for calls that either return
    or raise. */
module Wrappers {

  /** A value that may be absent (Python `None`). */
  datatype Option<+T> = None | Some(value: T) {

    /** The wrapped value, or `default` when absent. */
    function GetOr(default: T): T {
      match this
      case Some(v) => v
      case None => default
    }
  }

  /** The outcome of a call that either returns `value` or raises `error`. */
  datatype Result<+R, +E> = Success(value: R) | Failure(error: E)
}
